=== FILE: README.md ===
# Tank war simulation core in Dafny

A model of the simulation core of a two-player artillery game, with proofs about it:

- **Terrain** (`Terrain`, `terrain.dfy`): the `Landscape` bitmap. It is a row-major `width * height` byte buffer, non-zero meaning solid. The module covers the validating constructor, the noise configuration setters, and generation from a per-column surface row. It also covers the bounds-checked point query, the clipped horizontal run handed out for in-place writes, and the row-major list of filled cells.
- **Index arithmetic as written** (`IndexOverflow`, `overflow.dfy`): the same three index computations in the source's fixed-width integers, with wrap-around. They are set against the exact arithmetic of `Terrain` (see Findings).
- **Round** (`Game`, `game.dfy`): the five-phase `GameState` and the `Round` that holds it. It covers the fixed-order per-tick `Update` with its four sub-steps and turn rotation. It also covers `Shoot`, the saturating angle and power commands, and the read accessors with their defaults.
  - The behaviour of tanks, missiles, explosions and terrain settling comes from code outside the modelled files. It enters as a `Physics` record of functions: one placement step and "placed?", the missile step and "impact point?", the explosion step and "done?", and one settling step and "stable?". Marking the terrain as settling, the tank's fall restart and the tank's gun are further oracles.
  - Sounds are event counters (`Sounds`).
  - The wind drawn when a turn ends is a parameter.
- **Roster** (`Roster`, `roster.dfy`): `create_players_count` and `players_count` of the world.

`base.dfy` (module `Base`) holds the integer widths, `Option`/`Result`, and the division/remainder lemmas that the row-major indexing rests on.

The noise generator is a `Sampler`. It maps the noise configuration and the sampled coordinate `x + dx` to the rounded surface row. `Surface` then clamps that row to `[0, height]`, as `generate` does. The source's row is `height / 2 + noise * amplitude`, so a `Sampler` stands for one landscape's height and amplitude; `Valid` records that the amplitude is always half the height, since only `new` sets it.

`Landscape::new` checks each dimension against `i32::MAX` but never bounds `width * height` (`Terrain.New`); the Findings below follow from that.

## Model

| member | source | states |
|---|---|---|
| `Terrain.New` | src/landscape.rs:14-37 | fails exactly when a dimension is 0 or above `i32::MAX`; otherwise the buffer has `width * height` cells, all empty, with `dx = 0`, `changed` set, seed 0, 4 octaves, frequency `2 / width`, amplitude `height / 2` |
| `Terrain.NewIsEmpty` | src/landscape.rs:31 | no point of a freshly built landscape is reported solid by the point query |
| `Terrain.SetSeed` | src/landscape.rs:39-42 | the seed read back is the one set; octaves, frequency, buffer, `dx`, `changed` and size are untouched |
| `Terrain.SetOctaves` | src/landscape.rs:48-51 | the octave count is the one set; seed, frequency, buffer, `dx`, `changed` and size are untouched |
| `Terrain.SeedReadsBack` | src/landscape.rs:44-46 | the seed read back is the last one set, 0 on a fresh landscape, and unchanged by setting octaves |
| `Terrain.SeedAndOctavesCommute` | src/landscape.rs:39-51 | re-seeding and changing octaves commute and keep the landscape valid |
| `Terrain.Size` | src/landscape.rs:58-61 | the reported size is positive and its product is the buffer length |
| `Terrain.Surface` | src/landscape.rs:69-72 | the surface row of a column is the sample at `x + dx` clamped to `[0, height]`: 0 for a negative sample, `height` (an all-sky column) for one above the terrain, the sample itself in between |
| `Terrain.Generate` | src/landscape.rs:63-90 | the column-by-column strided clear-then-fill yields exactly the reference bitmap `Generated`; size, noise, `dx`, `changed` are kept |
| `Terrain.GeneratedCell` | src/landscape.rs:73-88 | after generation, cell `(x, y)` is 0 above the column's surface row and 1 from it down |
| `Terrain.GeneratedColumnsAreContiguous` | src/landscape.rs:68-88 | after generation a cell is solid iff it is at or below the surface; a solid cell's lower neighbour is solid; a column whose surface is `height` is all empty |
| `Terrain.GenerateIsDeterministic` | src/landscape.rs:63-90 | the generated bitmap depends only on size, noise configuration and `dx`, never on the previous buffer |
| `Terrain.IsNotEmpty` | src/landscape.rs:118-124 | false for any out-of-range coordinate; otherwise true iff the cell's byte is non-zero |
| `Terrain.PointOf` | src/landscape.rs:98-100 | buffer position `i` maps to an in-bounds cell whose index is `i` again |
| `Terrain.FilledPoints` | src/landscape.rs:93-105 | lists only solid cells, lists every solid cell, and lists them in strictly increasing row-major order |
| `Terrain.PixelsLine` | src/landscape.rs:107-116 | `None` exactly for an out-of-bounds point or zero length; otherwise the run starts at `y * width + x`, has length `min(length, width - x) >= 1`, and ends within row `y` |
| `Terrain.WriteRun` | src/landscape.rs:115 | writing through the slice replaces exactly the run's cells and keeps the landscape valid |
| `Terrain.LineWriteIsLocal` | src/landscape.rs:108-116 | a write through a line changes cells `x .. x + length` of row `y` and no other cell |
| `IndexOverflow.IsNotEmptyAsWritten` | src/landscape.rs:118-124 | with the `u32` index, agrees with the exact query whenever `y * width + x < 2^32` |
| `IndexOverflow.IsNotEmptyWrapsAround` | src/landscape.rs:122-123 | on an accepted 65536 x 65537 landscape the `u32` index reads the wrong row |
| `IndexOverflow.PixelsLineAsWritten` | src/landscape.rs:108-116 | with the `i32` index, agrees with the exact run whenever `y * width + x <= i32::MAX` |
| `IndexOverflow.PixelsLineOverflowPanics` | src/landscape.rs:113-115 | on an accepted 65536 x 32769 landscape an in-bounds point makes the slice panic |
| `IndexOverflow.PointOfAsWritten` | src/landscape.rs:98-99 | with `i as u32`, agrees with the exact coordinates whenever `i < 2^32` |
| `IndexOverflow.FilledPointTruncates` | src/landscape.rs:98-99 | on an accepted landscape a solid cell at position `2^32` is reported as the empty cell `(0, 0)` |
| `Game.NextTurn` | src/game_state.rs:115-118 | the next turn index is `(current + 1) mod count` and stays below `count` |
| `Game.TurnsRotate` | src/game_state.rs:115-118 | after `n` ended turns the current tank is `(current + n) mod count` |
| `Game.TurnsReturnToStart` | src/game_state.rs:115-118 | after as many ended turns as there are tanks the same tank plays again |
| `Game.Step` | src/game_state.rs:74-79 | a tick, a shot or an aiming command keeps the tank count and a valid current tank, and moves the current tank on by one turn exactly when it ends a turn |
| `Game.RunRotatesTurns` | src/game_state.rs:115-118 | over any run of ticks, shots and aiming commands the current tank is the starting one advanced once per ended turn, modulo the number of tanks |
| `Game.RunReturnsToStart` | src/game_state.rs:115-118 | a run that ends as many turns as there are tanks (shoot, impact, settle, once per tank) gives the turn back to the starting tank |
| `Game.StepTanks` | src/game_state.rs:83-86 | every tank is stepped once, in order, on the landscape the previous one left, even after one not yet placed; the result is "placed" iff every tank reported placed |
| `Game.UpdateTanks` | src/game_state.rs:81-92 | outside throwing nothing changes; while throwing the phase becomes `Aiming` iff all tanks report placed, else stays `TanksThrowing` |
| `Game.UpdateMissile` | src/game_state.rs:94-101 | outside flight nothing changes; on impact the phase becomes `Exploding` at the impact point with radius 50 and one explosion sound; otherwise the stepped missile keeps flying |
| `Game.UpdateExplosion` | src/game_state.rs:103-110 | outside exploding nothing changes; once the explosion is done the terrain is marked settling and the phase becomes `Subsidence` |
| `Game.ThrowDownAll` | src/game_state.rs:119-121 | every tank, and only those, restarts its fall |
| `Game.UpdateLandscape` | src/game_state.rs:112-126 | outside settling nothing changes; once stable the turn passes modulo the tank count, every tank is thrown down, the new wind is taken and the phase becomes `TanksThrowing` |
| `Game.Update` | src/game_state.rs:74-79 | one tick only reaches the listed phases: it never leaves `Aiming` and never enters flight; impact, finished explosion and stable terrain cascade from flight to `TanksThrowing` in one tick; at most one explosion sound, no fire sound; a valid current tank stays valid; the current tank advances by one turn exactly when the tick ends a turn and is otherwise unchanged |
| `Game.Clamp` | src/game_state.rs:131-136 | the saturated value lies in the range and is the input when the input is in range |
| `Game.ClampIsNearest` | src/game_state.rs:131-136 | saturation returns the point of the range nearest to the input |
| `Game.IncGunAngle` | src/game_state.rs:129-139 | only the current tank's angle changes, it stays in `[-90, 90]` and is `angle + delta` when that is in range; no-op without a current tank |
| `Game.AimCommandsKeepRange` | src/game_state.rs:129-139 | any interleaving of angle and power commands keeps a gun whose angle is in `[-90, 90]` and power in `[0, 100]` within those ranges, the empty series included |
| `Game.AimStaysInRange` | src/game_state.rs:129-139 | after any non-empty series of angle changes the angle is in `[-90, 90]` |
| `Game.GunAngle` | src/game_state.rs:141-146 | the current tank's angle, and 90 when there is no current tank |
| `Game.GunAngleReadsBack` | src/game_state.rs:141-146 | the angle read after a change is the saturated sum; 90 without a current tank |
| `Game.IncGunPower` | src/game_state.rs:165-175 | only the current tank's power changes, it stays in `[0, 100]` and is `power + delta` when that is in range; no-op without a current tank |
| `Game.GunPower` | src/game_state.rs:148-153 | the current tank's power, and 0 when there is no current tank |
| `Game.PowerStaysInRange` | src/game_state.rs:165-175 | after any non-empty series of power changes the power is in `[0, 100]` |
| `Game.GunPowerReadsBack` | src/game_state.rs:148-153 | the power read after a change is the saturated sum; 0 without a current tank |
| `Game.MissileSpeed` | src/game_state.rs:155-162 | the speed reads 0 in every phase but flight |
| `Game.Shoot` | src/game_state.rs:177-185 | while aiming with a current tank, the phase becomes flight of the tank's missile, accelerated by wind and gravity, with exactly one fire sound and nothing else changed; otherwise nothing changes |
| `Game.ShotMissileHasSpeed` | src/game_state.rs:155-162 | right after a shot the speed read is that of the fired missile |
| `Roster.ClampedCount` | src/world.rs:67 | the roster size never exceeds the maximum, is at least 2 when the maximum allows, and is the request when that is in range |
| `Roster.CreatePlayersCount` | src/world.rs:66-72 | the new roster has `min(max(count, 2), MAX_PLAYERS_COUNT)` players, all with no money, whatever the old roster held |
| `Roster.PlayersCount` | src/world.rs:74-76 | the count is the number of players when that fits in a `u8` |
| `Roster.CountAfterCreate` | src/world.rs:66-76 | counting after creating gives the clamped request, which lies in `[2, MAX_PLAYERS_COUNT]` when the maximum is at least 2 |

## Left out

- The fractal noise (`Fbm`) and its `f64` arithmetic and rounding are replaced by the `Sampler` function. It gives the rounded surface row before the clamp; the clamp is modelled.
- `Terrain.Surface`: the sampled coordinate `x + dx` is exact. The source adds in `i32`, which can overflow for extreme `dx`.
- `to_rgba` is not modelled. It reinterprets memory through `set_len` and `align_to_mut`, so its byte order depends on the host.
- `set_frequency` is not modelled. It takes the landscape by value, so a caller's landscape never sees the change.
- `Game.Physics`: `Landscape::subsidence` marks the terrain as settling, but the modelled `Landscape` has no field for that mark. The mark is assumed to be carried by the landscape that `subside` returns and read back by `settle`; the model does not say which field holds it.
- `Game.Tank`: the tank's placement state (falling or resting) is not a field. It is folded into the position that the `Physics` placement and fall-restart oracles return, and "placed?" is reported by the placement step.
- `Tank`, `Missile`, `Explosion`, `Landscape::subsidence` and `Landscape::update` are not part of this model. They are oracles in `Physics`, and nothing is claimed about placement, flight, carving or settling geometry. `Explosion::new` is modelled as the centre, the radius and a zero progress counter.
- `Round::new`, `update_landscape_seed`, `regenerate_landscape` and `change_wind` are not modelled. They draw from the thread RNG and cast `f32` sizes to `u16`. The wind a finished turn draws is a parameter of `Game.Update`.
- `Game.MissileSpeed`: the speed is a parameter function of the missile. The vector magnitude and its `sqrt` are not modelled; only the phase gate is.
- Audio playback and its `unwrap` are not modelled. Each trigger increments a counter in `Sounds`.
- `Game.IncGunAngle`: angles are reals, so `f32` rounding is not modelled. A NaN delta is not modelled either; in the source it would leave a NaN angle, outside `[-90, 90]`.
- `Game.IncGunPower`: powers are reals, with the same `f32` and NaN caveat as the angle.
- `World::new` (asset, mesh and shader loading) and the world's other fields are not modelled.
- `MAX_PLAYERS_COUNT` and the `Player` type come from files that are not part of this model. The maximum is a parameter and money is an integer.
- For the first two Findings (src/landscape.rs:122 and src/landscape.rs:113) a debug build panics on the overflow; the as-written members model the wrapping arithmetic of a release build. The `i as u32` cast of the third (src/landscape.rs:98) truncates silently in every build.

## Findings

| source | as written | input that shows it | evidently intended | confidence | as-written member | corrected member |
|---|---|---|---|---|---|---|
| src/landscape.rs:122 | index `y as u32 * width + x as u32` wraps in `u32` | 65536 x 65537 landscape (accepted by `new`), point `(0, 65536)`: reads buffer position 0 instead of `2^32` | read the cell at `(x, y)` for every in-bounds point | medium, not executed | `IndexOverflow.IsNotEmptyAsWritten`, `IndexOverflow.IsNotEmptyWrapsAround` | `Terrain.IsNotEmpty` |
| src/landscape.rs:113 | index `y * width as i32 + x` overflows `i32`, then `as usize` sign-extends | 65536 x 32769 landscape, point `(0, 32768)`, length 1: the slice start is near `2^64` and indexing panics | return the run at `(x, y)` for every in-bounds point | medium, not executed | `IndexOverflow.PixelsLineAsWritten`, `IndexOverflow.PixelsLineOverflowPanics` | `Terrain.PixelsLine` |
| src/landscape.rs:98-99 | coordinates from `i as u32`, truncating positions at or above `2^32` | 65536 x 65537 landscape, solid cell at position `2^32`: reported as `(0, 0)`, an empty cell | report `(i % width, i / width)` for every position | medium, not executed | `IndexOverflow.PointOfAsWritten`, `IndexOverflow.FilledPointTruncates` | `Terrain.PointOf`, `Terrain.FilledPoints` |

=== FILE: base.dfy ===
/** Machine integer widths used by the game, failure-carrying wrappers, and the
    index arithmetic the row-major terrain buffer relies on. */
module Base {

  const I32_MAX: int := 0x7fff_ffff
  const U32_MODULUS: int := 0x1_0000_0000
  const USIZE_MODULUS: int := 0x1_0000_0000_0000_0000

  type u8 = x: int | 0 <= x < 0x100
  type u32 = x: int | 0 <= x < 0x1_0000_0000
  type i32 = x: int | -0x8000_0000 <= x <= 0x7fff_ffff

  datatype Option<+T> = None | Some(value: T)

  datatype Result<+T, +E> = Ok(value: T) | Err(error: E)

  function Min(a: int, b: int): int { if a <= b then a else b }

  function Max(a: int, b: int): int { if a >= b then a else b }

  /** Division and remainder by a positive width are determined by any
      decomposition `i == q * w + r` with `0 <= r < w`. */
  lemma DivModUnique(i: int, w: int, q: int, r: int)
    requires 0 < w && 0 <= r < w && i == q * w + r
    ensures i / w == q && i % w == r
  {
    var q0, r0 := i / w, i % w;
    assert i == q0 * w + r0;
    assert (q - q0) * w == r0 - r;
    if q > q0 {
      MulAtLeast(q - q0, w);
      assert false;
    } else if q < q0 {
      MulAtLeast(q0 - q, w);
      assert false;
    }
  }

  lemma MulAtLeast(a: int, w: int)
    requires 1 <= a && 0 < w
    ensures a * w >= w
  {
    assert a * w == (a - 1) * w + w;
    assert (a - 1) * w >= 0;
  }

  /** Multiplying by a positive width preserves strict order. */
  lemma MulStrict(a: int, b: int, w: int)
    requires a < b && 0 < w
    ensures a * w < b * w
  {
    MulAtLeast(b - a, w);
    assert b * w - a * w == (b - a) * w;
  }

  /** The cell at column `x`, row `y` of a `w`-wide row-major grid of `h` rows. */
  lemma IndexInGrid(w: int, h: int, x: int, y: int)
    requires 0 <= x < w && 0 <= y < h
    ensures 0 <= y * w + x < h * w
    ensures (y * w + x) / w == y && (y * w + x) % w == x
  {
    MulStrict(y, h, w);
    assert y * w + x < y * w + w == (y + 1) * w;
    if y + 1 < h {
      MulStrict(y + 1, h, w);
    }
    assert y * w >= 0 by { if y > 0 { MulAtLeast(y, w); } }
    DivModUnique(y * w + x, w, y, x);
  }

  /** Every index below `w * h` is the cell of exactly one (column, row). */
  lemma GridOfIndex(w: int, h: int, i: int)
    requires 0 < w && 0 < h && 0 <= i < w * h
    ensures 0 <= i % w < w && 0 <= i / w < h
    ensures (i / w) * w + i % w == i
  {
    if i / w >= h {
      MulAtLeast(i / w - h + 1, w);
      assert (i / w) * w == (i / w - h) * w + h * w;
      if i / w > h {
        MulAtLeast(i / w - h, w);
      }
      assert false;
    }
  }
}

=== FILE: game.dfy ===
/** The round: the turn and phase state machine that places tanks, flies a
    missile, plays an explosion and lets the terrain settle, one tick at a
    time. Tanks, missiles, explosions and terrain settling are driven through
    the `Physics` oracles; sounds are counted. */
module Game {
  import opened Base
  import opened Terrain

  datatype Vector = Vector(x: real, y: real)

  datatype Tank = Tank(position: Vector, angle: real, power: real)

  datatype Missile = Missile(position: Vector, velocity: Vector, acceleration: Vector)

  /** A carve-out in progress around `center`, growing towards `maxRadius`. */
  datatype Explosion = Explosion(center: Vector, maxRadius: real, progress: nat)

  /** The explosion radius a missile impact starts. */
  const EXPLOSION_RADIUS: real := 50.0

  const MIN_ANGLE: real := -90.0
  const MAX_ANGLE: real := 90.0
  const MIN_POWER: real := 0.0
  const MAX_POWER: real := 100.0

  /** `gun_angle` and `gun_power` when there is no current tank. */
  const DEFAULT_ANGLE: real := 90.0
  const DEFAULT_POWER: real := 0.0

  function NewExplosion(center: Vector, maxRadius: real): Explosion
  {
    Explosion(center, maxRadius, 0)
  }

  /** The phase of a round; the flying and exploding phases own their missile
      and explosion, so no other phase can hold one. */
  datatype GameState =
    | TanksThrowing
    | Aiming
    | FlyingOfMissile(missile: Missile)
    | Exploding(explosion: Explosion)
    | Subsidence

  datatype Round = Round(
    landscape: Landscape,
    windPower: real,
    tanks: seq<Tank>,
    currentTank: nat,
    state: GameState)

  /** How many times each sound has been triggered. */
  datatype Sounds = Sounds(fired: nat, exploded: nat)

  /** A round together with the sound triggers it has pulled. */
  datatype Tick = Tick(round: Round, sounds: Sounds)

  datatype Placement = Placement(tank: Tank, landscape: Landscape, placed: bool)
  datatype Flight = Flight(missile: Missile, impact: Option<Vector>)
  datatype Blast = Blast(explosion: Explosion, landscape: Landscape, done: bool)
  datatype Settling = Settling(landscape: Landscape, stable: bool)

  type PlaceFn = (Tank, Landscape) -> Placement

  /** The behaviour of tanks, missiles, explosions and terrain settling, and
      the gravity constant, which the round only calls. */
  datatype Physics = Physics(
    gravity: real,
    place: PlaceFn,                    // one placement step of a tank; placed?
    throwDown: Tank -> Tank,           // restart a tank's fall
    fire: (Tank, Vector) -> Missile,   // a missile leaving the tank's gun
    fly: (Missile, Landscape) -> Flight,
    blast: (Explosion, Landscape) -> Blast,
    subside: Landscape -> Landscape,   // mark the terrain as settling
    settle: Landscape -> Settling)     // one settling step; stable?

  /** The round's standing invariant: there is a current tank. */
  predicate HasCurrentTank(r: Round)
  {
    r.currentTank < |r.tanks|
  }

  // ---------------------------------------------------------------- turns

  /** The next player's turn. */
  function NextTurn(current: nat, count: nat): (r: nat)
    ensures count > 0 ==> r < count
    ensures current < count ==> r == (current + 1) % count
  {
    var next := current + 1;
    if next >= count then 0 else next
  }

  /** The current tank after `n` turns have ended. */
  function AfterTurns(current: nat, count: nat, n: nat): nat
  {
    if n == 0 then current else NextTurn(AfterTurns(current, count, n - 1), count)
  }

  /** Turns rotate modulo the number of tanks. */
  lemma {:induction false} TurnsRotate(current: nat, count: nat, n: nat)
    requires current < count
    ensures AfterTurns(current, count, n) == (current + n) % count
  {
    if n > 0 {
      TurnsRotate(current, count, n - 1);
      ModSuccessor(current + n - 1, count);
    }
  }

  lemma ModSuccessor(a: nat, count: nat)
    requires 0 < count
    ensures (a % count + 1) % count == (a + 1) % count
  {
    var q, m := a / count, a % count;
    assert a == q * count + m;
    if m + 1 < count {
      DivModUnique(m + 1, count, 0, m + 1);
      DivModUnique(a + 1, count, q, m + 1);
    } else {
      DivModUnique(m + 1, count, 1, 0);
      DivModUnique(a + 1, count, q + 1, 0);
    }
  }

  /** After as many turns as there are tanks, the first tank plays again. */
  lemma TurnsReturnToStart(current: nat, count: nat)
    requires current < count
    ensures AfterTurns(current, count, count) == current
  {
    TurnsRotate(current, count, count);
    DivModUnique(current + count, count, 1, current);
  }

  // ---------------------------------------------------------- tank placement

  /** The landscape tank `i` sees: the one left by stepping tanks `0 .. i`. */
  function LandBefore(tanks: seq<Tank>, land: Landscape, place: PlaceFn, i: nat): Landscape
    requires i <= |tanks|
  {
    if i == 0 then land else place(tanks[i - 1], LandBefore(tanks, land, place, i - 1)).landscape
  }

  /** The outcome of stepping tank `i` in turn. */
  function StepOf(tanks: seq<Tank>, land: Landscape, place: PlaceFn, i: nat): Placement
    requires i < |tanks|
  {
    place(tanks[i], LandBefore(tanks, land, place, i))
  }

  predicate AllPlaced(tanks: seq<Tank>, land: Landscape, place: PlaceFn)
  {
    forall i :: 0 <= i < |tanks| ==> StepOf(tanks, land, place, i).placed
  }

  /** Stepping the first tank and then the rest is stepping them all in order. */
  lemma {:induction false} LandBeforeShift(tanks: seq<Tank>, land: Landscape, place: PlaceFn, i: nat)
    requires 0 < |tanks| && i < |tanks|
    ensures LandBefore(tanks[1..], place(tanks[0], land).landscape, place, i)
      == LandBefore(tanks, land, place, i + 1)
  {
    if i > 0 {
      LandBeforeShift(tanks, land, place, i - 1);
      assert tanks[1..][i - 1] == tanks[i];
    }
  }

  datatype Stepped = Stepped(tanks: seq<Tank>, landscape: Landscape, allPlaced: bool)

  /** One placement step of every tank, in order, each on the landscape the
      previous one left; a tank that is not placed does not stop the others. */
  function StepTanks(tanks: seq<Tank>, land: Landscape, place: PlaceFn): (r: Stepped)
    ensures |r.tanks| == |tanks|
    ensures forall i :: 0 <= i < |tanks| ==> r.tanks[i] == StepOf(tanks, land, place, i).tank
    ensures r.landscape == LandBefore(tanks, land, place, |tanks|)
    ensures r.allPlaced <==> AllPlaced(tanks, land, place)
    decreases |tanks|
  {
    if |tanks| == 0 then
      Stepped([], land, true)
    else
      var first := place(tanks[0], land);
      var rest := StepTanks(tanks[1..], first.landscape, place);
      ShiftAll(tanks, land, place);
      Stepped([first.tank] + rest.tanks, rest.landscape, first.placed && rest.allPlaced)
  }

  lemma ShiftAll(tanks: seq<Tank>, land: Landscape, place: PlaceFn)
    requires 0 < |tanks|
    ensures forall i :: 0 <= i < |tanks| ==>
      LandBefore(tanks[1..], place(tanks[0], land).landscape, place, i)
        == LandBefore(tanks, land, place, i + 1)
    ensures forall i :: 0 <= i < |tanks| - 1 ==>
      StepOf(tanks[1..], place(tanks[0], land).landscape, place, i)
        == StepOf(tanks, land, place, i + 1)
    ensures AllPlaced(tanks, land, place) <==>
      place(tanks[0], land).placed && AllPlaced(tanks[1..], place(tanks[0], land).landscape, place)
  {
    forall i | 0 <= i < |tanks|
      ensures LandBefore(tanks[1..], place(tanks[0], land).landscape, place, i)
        == LandBefore(tanks, land, place, i + 1)
    {
      LandBeforeShift(tanks, land, place, i);
    }
    var rest, land1 := tanks[1..], place(tanks[0], land).landscape;
    assert StepOf(tanks, land, place, 0) == place(tanks[0], land);
    if AllPlaced(tanks, land, place) {
      forall i | 0 <= i < |rest| ensures StepOf(rest, land1, place, i).placed {
        assert StepOf(tanks, land, place, i + 1).placed;
      }
    }
    if place(tanks[0], land).placed && AllPlaced(rest, land1, place) {
      forall i | 0 <= i < |tanks| ensures StepOf(tanks, land, place, i).placed {
        if i > 0 {
          assert StepOf(rest, land1, place, i - 1).placed;
        }
      }
    }
  }

  // ------------------------------------------------------------ sub-steps

  /** While tanks are being thrown, step each one; aim once all are placed. */
  function UpdateTanks(r: Round, phys: Physics): (r': Round)
    ensures !r.state.TanksThrowing? ==> r' == r
    ensures r.state.TanksThrowing? ==>
      && (r'.state == Aiming <==> AllPlaced(r.tanks, r.landscape, phys.place))
      && (r'.state == Aiming || r'.state == TanksThrowing)
      && |r'.tanks| == |r.tanks|
      && (forall i :: 0 <= i < |r.tanks| ==>
            r'.tanks[i] == StepOf(r.tanks, r.landscape, phys.place, i).tank)
      && r'.landscape == LandBefore(r.tanks, r.landscape, phys.place, |r.tanks|)
      && r'.currentTank == r.currentTank && r'.windPower == r.windPower
  {
    if r.state.TanksThrowing? then
      var s := StepTanks(r.tanks, r.landscape, phys.place);
      r.(tanks := s.tanks, landscape := s.landscape,
         state := if s.allPlaced then Aiming else TanksThrowing)
    else
      r
  }

  /** While a missile flies, step it; on impact play the explosion sound once
      and start an explosion at the impact point. */
  function UpdateMissile(t: Tick, phys: Physics): (t': Tick)
    ensures !t.round.state.FlyingOfMissile? ==> t' == t
    ensures t.round.state.FlyingOfMissile? ==>
      var f := phys.fly(t.round.state.missile, t.round.landscape);
      && t'.round == t.round.(state := t'.round.state)
      && t'.sounds.fired == t.sounds.fired
      && (f.impact.Some? ==>
            && t'.round.state == Exploding(NewExplosion(f.impact.value, EXPLOSION_RADIUS))
            && t'.sounds.exploded == t.sounds.exploded + 1)
      && (f.impact.None? ==>
            t'.round.state == FlyingOfMissile(f.missile) && t'.sounds == t.sounds)
  {
    match t.round.state
    case FlyingOfMissile(missile) =>
      var f := phys.fly(missile, t.round.landscape);
      if f.impact.Some? then
        Tick(t.round.(state := Exploding(NewExplosion(f.impact.value, EXPLOSION_RADIUS))),
             t.sounds.(exploded := t.sounds.exploded + 1))
      else
        Tick(t.round.(state := FlyingOfMissile(f.missile)), t.sounds)
    case _ => t
  }

  /** While exploding, step the explosion; once done, start the terrain
      settling. */
  function UpdateExplosion(r: Round, phys: Physics): (r': Round)
    ensures !r.state.Exploding? ==> r' == r
    ensures r.state.Exploding? ==>
      var b := phys.blast(r.state.explosion, r.landscape);
      && r' == r.(landscape := r'.landscape, state := r'.state)
      && (b.done ==> r'.state == Subsidence && r'.landscape == phys.subside(b.landscape))
      && (!b.done ==> r'.state == Exploding(b.explosion) && r'.landscape == b.landscape)
  {
    match r.state
    case Exploding(explosion) =>
      var b := phys.blast(explosion, r.landscape);
      if b.done then
        r.(landscape := phys.subside(b.landscape), state := Subsidence)
      else
        r.(landscape := b.landscape, state := Exploding(b.explosion))
    case _ => r
  }

  /** Every tank restarts its fall. */
  function ThrowDownAll(tanks: seq<Tank>, phys: Physics): (r: seq<Tank>)
    ensures |r| == |tanks|
    ensures forall i :: 0 <= i < |tanks| ==> r[i] == phys.throwDown(tanks[i])
  {
    seq(|tanks|, i requires 0 <= i < |tanks| => phys.throwDown(tanks[i]))
  }

  /** While settling, step the terrain; once stable, pass the turn, throw every
      tank down again, take the new wind and go back to throwing tanks. */
  function UpdateLandscape(r: Round, phys: Physics, wind: real): (r': Round)
    ensures !r.state.Subsidence? ==> r' == r
    ensures r.state.Subsidence? ==>
      var s := phys.settle(r.landscape);
      && r'.landscape == s.landscape
      && (!s.stable ==> r' == r.(landscape := s.landscape))
      && (s.stable ==>
            && r'.state == TanksThrowing
            && r'.currentTank == NextTurn(r.currentTank, |r.tanks|)
            && r'.tanks == ThrowDownAll(r.tanks, phys)
            && r'.windPower == wind)
  {
    if r.state.Subsidence? then
      var s := phys.settle(r.landscape);
      if s.stable then
        Round(s.landscape, wind, ThrowDownAll(r.tanks, phys),
              NextTurn(r.currentTank, |r.tanks|), TanksThrowing)
      else
        r.(landscape := s.landscape)
    else
      r
  }

  // ------------------------------------------------------------------ tick

  /** The phases one tick can end in, from each phase. */
  predicate TickReaches(from: GameState, to: GameState)
  {
    match from
    case TanksThrowing => to.TanksThrowing? || to.Aiming?
    case Aiming => to.Aiming?
    case FlyingOfMissile(_) => !to.Aiming?
    case Exploding(_) => to.Exploding? || to.Subsidence? || to.TanksThrowing?
    case Subsidence => to.Subsidence? || to.TanksThrowing?
  }

  /** A tick ends the turn when it brings the round back to placing tanks. */
  predicate EndsTurn(t: Tick, t': Tick)
  {
    t'.round.state.TanksThrowing? && !t.round.state.TanksThrowing?
  }

  /** One tick: tanks, missile, explosion, terrain, in that order, each acting
      only in its own phase, so one tick can run through several phases.
      `wind` is the wind drawn if a turn ends. */
  function Update(t: Tick, phys: Physics, wind: real): (t': Tick)
    ensures TickReaches(t.round.state, t'.round.state)
    ensures t'.round.state.FlyingOfMissile? ==> t.round.state.FlyingOfMissile?
    ensures t.round.state == Aiming ==> t' == t
    ensures |t'.round.tanks| == |t.round.tanks|
    ensures HasCurrentTank(t.round) ==> HasCurrentTank(t'.round)
    ensures t'.sounds.fired == t.sounds.fired
    ensures t'.sounds.exploded == t.sounds.exploded + 1 <==>
      t.round.state.FlyingOfMissile?
      && phys.fly(t.round.state.missile, t.round.landscape).impact.Some?
    ensures t'.sounds.exploded == t.sounds.exploded || t'.sounds.exploded == t.sounds.exploded + 1
    ensures t.round.state.FlyingOfMissile? ==>
      var f := phys.fly(t.round.state.missile, t.round.landscape);
      f.impact.Some? ==>
        var b := phys.blast(NewExplosion(f.impact.value, EXPLOSION_RADIUS), t.round.landscape);
        b.done && phys.settle(phys.subside(b.landscape)).stable ==>
          && t'.round.state == TanksThrowing
          && t'.round.currentTank == NextTurn(t.round.currentTank, |t.round.tanks|)
    ensures t'.round.currentTank ==
      if EndsTurn(t, t') then NextTurn(t.round.currentTank, |t.round.tanks|) else t.round.currentTank
  {
    var r1 := UpdateTanks(t.round, phys);
    var t2 := UpdateMissile(Tick(r1, t.sounds), phys);
    var r3 := UpdateExplosion(t2.round, phys);
    var r4 := UpdateLandscape(r3, phys, wind);
    Tick(r4, t2.sounds)
  }

  // -------------------------------------------------------------- commands

  /** `v` clamped to `[lo, hi]`, comparing against the upper bound first. */
  function Clamp(v: real, lo: real, hi: real): (r: real)
    requires lo <= hi
    ensures lo <= r <= hi
    ensures lo <= v <= hi ==> r == v
  {
    if v > hi then hi else if v < lo then lo else v
  }

  /** Saturation picks the point of `[lo, hi]` nearest to `v`. */
  lemma ClampIsNearest(v: real, lo: real, hi: real, w: real)
    requires lo <= hi && lo <= w <= hi
    ensures Abs(Clamp(v, lo, hi) - v) <= Abs(w - v)
  {
  }

  function Abs(v: real): real { if v < 0.0 then -v else v }

  /** Turns the current tank's gun by `delta` degrees, saturating at the
      vertical; nothing happens without a current tank. */
  function IncGunAngle(r: Round, delta: real): (r': Round)
    ensures r' == r.(tanks := r'.tanks) && |r'.tanks| == |r.tanks|
    ensures !HasCurrentTank(r) ==> r' == r
    ensures HasCurrentTank(r) ==>
      var before := r.tanks[r.currentTank];
      var after := r'.tanks[r.currentTank];
      && after == before.(angle := after.angle)
      && MIN_ANGLE <= after.angle <= MAX_ANGLE
      && (MIN_ANGLE <= before.angle + delta <= MAX_ANGLE ==> after.angle == before.angle + delta)
      && (forall i :: 0 <= i < |r.tanks| && i != r.currentTank ==> r'.tanks[i] == r.tanks[i])
  {
    if HasCurrentTank(r) then
      var tank := r.tanks[r.currentTank];
      var angle := Clamp(tank.angle + delta, MIN_ANGLE, MAX_ANGLE);
      r.(tanks := r.tanks[r.currentTank := tank.(angle := angle)])
    else
      r
  }

  /** Changes the current tank's power by `delta`, saturating at 0 and 100;
      nothing happens without a current tank. */
  function IncGunPower(r: Round, delta: real): (r': Round)
    ensures r' == r.(tanks := r'.tanks) && |r'.tanks| == |r.tanks|
    ensures !HasCurrentTank(r) ==> r' == r
    ensures HasCurrentTank(r) ==>
      var before := r.tanks[r.currentTank];
      var after := r'.tanks[r.currentTank];
      && after == before.(power := after.power)
      && MIN_POWER <= after.power <= MAX_POWER
      && (MIN_POWER <= before.power + delta <= MAX_POWER ==> after.power == before.power + delta)
      && (forall i :: 0 <= i < |r.tanks| && i != r.currentTank ==> r'.tanks[i] == r.tanks[i])
  {
    if HasCurrentTank(r) then
      var tank := r.tanks[r.currentTank];
      var power := Clamp(tank.power + delta, MIN_POWER, MAX_POWER);
      r.(tanks := r.tanks[r.currentTank := tank.(power := power)])
    else
      r
  }

  /** The current tank's gun angle, or the vertical without a current tank. */
  function GunAngle(r: Round): (a: real)
    ensures !HasCurrentTank(r) ==> a == DEFAULT_ANGLE
    ensures HasCurrentTank(r) ==> a == r.tanks[r.currentTank].angle
  {
    if HasCurrentTank(r) then r.tanks[r.currentTank].angle else DEFAULT_ANGLE
  }

  /** The current tank's gun power, or none without a current tank. */
  function GunPower(r: Round): (p: real)
    ensures !HasCurrentTank(r) ==> p == DEFAULT_POWER
    ensures HasCurrentTank(r) ==> p == r.tanks[r.currentTank].power
  {
    if HasCurrentTank(r) then r.tanks[r.currentTank].power else DEFAULT_POWER
  }

  /** The angle read back after a turn of the gun is the saturated sum, and
      reads the default when there is no current tank. */
  lemma GunAngleReadsBack(r: Round, delta: real)
    ensures GunAngle(IncGunAngle(r, delta))
      == if HasCurrentTank(r) then Clamp(GunAngle(r) + delta, MIN_ANGLE, MAX_ANGLE) else DEFAULT_ANGLE
    ensures MIN_ANGLE <= GunAngle(IncGunAngle(r, delta)) <= MAX_ANGLE
  {
  }

  /** The power read back after a change is the saturated sum, and reads the
      default when there is no current tank. */
  lemma GunPowerReadsBack(r: Round, delta: real)
    ensures GunPower(IncGunPower(r, delta))
      == if HasCurrentTank(r) then Clamp(GunPower(r) + delta, MIN_POWER, MAX_POWER) else DEFAULT_POWER
    ensures MIN_POWER <= GunPower(IncGunPower(r, delta)) <= MAX_POWER
  {
  }

  /** Any non-empty series of angle changes leaves the angle in range. */
  lemma AimStaysInRange(r: Round, deltas: seq<real>)
    requires HasCurrentTank(r) && 0 < |deltas|
    ensures var r' := ApplyAngleChanges(r, deltas);
      HasCurrentTank(r') && MIN_ANGLE <= GunAngle(r') <= MAX_ANGLE
  {
  }

  /** The round after turning the gun by each delta in order. */
  function ApplyAngleChanges(r: Round, deltas: seq<real>): (r': Round)
    ensures |r'.tanks| == |r.tanks| && r'.currentTank == r.currentTank
  {
    if |deltas| == 0 then r else IncGunAngle(ApplyAngleChanges(r, deltas[..|deltas| - 1]), deltas[|deltas| - 1])
  }

  /** Any non-empty series of power changes leaves the power in range. */
  lemma PowerStaysInRange(r: Round, deltas: seq<real>)
    requires HasCurrentTank(r) && 0 < |deltas|
    ensures var r' := ApplyPowerChanges(r, deltas);
      HasCurrentTank(r') && MIN_POWER <= GunPower(r') <= MAX_POWER
  {
  }

  /** The round after changing the gun power by each delta in order. */
  function ApplyPowerChanges(r: Round, deltas: seq<real>): (r': Round)
    ensures |r'.tanks| == |r.tanks| && r'.currentTank == r.currentTank
  {
    if |deltas| == 0 then r else IncGunPower(ApplyPowerChanges(r, deltas[..|deltas| - 1]), deltas[|deltas| - 1])
  }

  /** One aiming command: turn the gun or change its power. */
  datatype AimCommand = TurnGun(delta: real) | ChangePower(delta: real)

  function Aim(r: Round, c: AimCommand): Round
  {
    match c
    case TurnGun(delta) => IncGunAngle(r, delta)
    case ChangePower(delta) => IncGunPower(r, delta)
  }

  /** The round after each of a series of aiming commands, in order. */
  function AimAll(r: Round, cmds: seq<AimCommand>): (r': Round)
    ensures |r'.tanks| == |r.tanks| && r'.currentTank == r.currentTank
  {
    if |cmds| == 0 then r else Aim(AimAll(r, cmds[..|cmds| - 1]), cmds[|cmds| - 1])
  }

  /** The current gun's angle and power both lie in their ranges. */
  predicate AimInRange(r: Round)
  {
    && MIN_ANGLE <= GunAngle(r) <= MAX_ANGLE
    && MIN_POWER <= GunPower(r) <= MAX_POWER
  }

  /** Any interleaving of angle and power commands keeps the gun in range. */
  lemma {:induction false} AimCommandsKeepRange(r: Round, cmds: seq<AimCommand>)
    requires AimInRange(r)
    ensures AimInRange(AimAll(r, cmds))
  {
    if |cmds| > 0 {
      AimCommandsKeepRange(r, cmds[..|cmds| - 1]);
      var before := AimAll(r, cmds[..|cmds| - 1]);
      GunAngleReadsBack(before, cmds[|cmds| - 1].delta);
      GunPowerReadsBack(before, cmds[|cmds| - 1].delta);
    }
  }

  /** The flying missile's speed; zero in every other phase. */
  function MissileSpeed(r: Round, speed: Missile -> real): (v: real)
    ensures !r.state.FlyingOfMissile? ==> v == 0.0
  {
    match r.state
    case FlyingOfMissile(missile) => speed(missile)
    case _ => 0.0
  }

  /** Fires the current tank's gun while aiming: one fire sound, and a missile
      accelerated by the wind and gravity takes flight. Otherwise nothing. */
  function Shoot(t: Tick, phys: Physics): (t': Tick)
    ensures t.round.state == Aiming && HasCurrentTank(t.round) ==>
      && t'.round == t.round.(state := t'.round.state)
      && t'.round.state == FlyingOfMissile(phys.fire(t.round.tanks[t.round.currentTank],
                                                     Vector(t.round.windPower, phys.gravity)))
      && t'.sounds == t.sounds.(fired := t.sounds.fired + 1)
    ensures !(t.round.state == Aiming && HasCurrentTank(t.round)) ==> t' == t
  {
    if t.round.state.Aiming? then
      if HasCurrentTank(t.round) then
        var tank := t.round.tanks[t.round.currentTank];
        var acceleration := Vector(t.round.windPower, phys.gravity);
        Tick(t.round.(state := FlyingOfMissile(phys.fire(tank, acceleration))),
             t.sounds.(fired := t.sounds.fired + 1))
      else
        t
    else
      t
  }

  /** A shot is the only way into flight, and it shows a speed at once. */
  lemma ShotMissileHasSpeed(t: Tick, phys: Physics, speed: Missile -> real)
    requires t.round.state == Aiming && HasCurrentTank(t.round)
    ensures var t' := Shoot(t, phys);
      MissileSpeed(t'.round, speed)
        == speed(phys.fire(t.round.tanks[t.round.currentTank], Vector(t.round.windPower, phys.gravity)))
  {
  }

  // ------------------------------------------------------------------- runs

  /** What can happen to a round: a tick (with the wind drawn if it ends a
      turn), a shot, or an aiming command. */
  datatype Event = Elapse(wind: real) | Fire | Command(cmd: AimCommand)

  function Step(t: Tick, phys: Physics, e: Event): (t': Tick)
    ensures |t'.round.tanks| == |t.round.tanks|
    ensures HasCurrentTank(t.round) ==> HasCurrentTank(t'.round)
    ensures t'.round.currentTank ==
      if EndsTurn(t, t') then NextTurn(t.round.currentTank, |t.round.tanks|) else t.round.currentTank
  {
    match e
    case Elapse(wind) => Update(t, phys, wind)
    case Fire => Shoot(t, phys)
    case Command(cmd) => t.(round := Aim(t.round, cmd))
  }

  /** The tick after each of a series of events, in order. */
  function Run(t: Tick, phys: Physics, events: seq<Event>): Tick
  {
    if |events| == 0 then t else Step(Run(t, phys, events[..|events| - 1]), phys, events[|events| - 1])
  }

  /** How many of a series of events end a turn. */
  function TurnEnds(t: Tick, phys: Physics, events: seq<Event>): nat
  {
    if |events| == 0 then 0
    else
      var before := Run(t, phys, events[..|events| - 1]);
      TurnEnds(t, phys, events[..|events| - 1])
        + if EndsTurn(before, Step(before, phys, events[|events| - 1])) then 1 else 0
  }

  /** Over any run of ticks, shots and aiming commands the current tank has
      advanced once per ended turn, modulo the number of tanks. */
  lemma {:induction false} RunRotatesTurns(t: Tick, phys: Physics, events: seq<Event>)
    requires HasCurrentTank(t.round)
    ensures HasCurrentTank(Run(t, phys, events).round)
    ensures |Run(t, phys, events).round.tanks| == |t.round.tanks|
    ensures Run(t, phys, events).round.currentTank
      == AfterTurns(t.round.currentTank, |t.round.tanks|, TurnEnds(t, phys, events))
    ensures Run(t, phys, events).round.currentTank
      == (t.round.currentTank + TurnEnds(t, phys, events)) % |t.round.tanks|
  {
    RunAdvancesTurns(t, phys, events);
    TurnsRotate(t.round.currentTank, |t.round.tanks|, TurnEnds(t, phys, events));
  }

  lemma {:induction false} RunAdvancesTurns(t: Tick, phys: Physics, events: seq<Event>)
    ensures HasCurrentTank(t.round) ==> HasCurrentTank(Run(t, phys, events).round)
    ensures |Run(t, phys, events).round.tanks| == |t.round.tanks|
    ensures Run(t, phys, events).round.currentTank
      == AfterTurns(t.round.currentTank, |t.round.tanks|, TurnEnds(t, phys, events))
  {
    if |events| > 0 {
      var init := events[..|events| - 1];
      RunAdvancesTurns(t, phys, init);
      StepAdvancesTurn(Run(t, phys, init), phys, events[|events| - 1]);
    }
  }

  /** One event's effect on the current tank, on its own. */
  lemma {:induction false} StepAdvancesTurn(t: Tick, phys: Physics, e: Event)
    ensures var t' := Step(t, phys, e);
      && (HasCurrentTank(t.round) ==> HasCurrentTank(t'.round))
      && |t'.round.tanks| == |t.round.tanks|
      && t'.round.currentTank
        == AfterTurns(t.round.currentTank, |t.round.tanks|, if EndsTurn(t, t') then 1 else 0)
  {
  }

  /** After as many ended turns as there are tanks, the starting tank plays
      again. */
  lemma {:induction false} RunReturnsToStart(t: Tick, phys: Physics, events: seq<Event>)
    requires HasCurrentTank(t.round)
    ensures TurnEnds(t, phys, events) == |t.round.tanks| ==>
      Run(t, phys, events).round.currentTank == t.round.currentTank
  {
    RunRotatesTurns(t, phys, events);
    TurnsReturnToStart(t.round.currentTank, |t.round.tanks|);
  }
}

=== FILE: overflow.dfy ===
/** The terrain's index arithmetic as the source writes it, in fixed-width
    integers with release-build wrap-around, set against the exact arithmetic
    of `Terrain`. `Terrain.New` accepts each dimension up to `i32::MAX`, so
    `width * height` can exceed what `u32` and `i32` hold. */
module IndexOverflow {
  import opened Base
  import opened Terrain

  /** `v as u32` / a wrapping `u32` operation. */
  function WrapU32(v: int): (r: u32)
    ensures 0 <= v < U32_MODULUS ==> r == v
  {
    v % U32_MODULUS
  }

  /** A wrapping `i32` operation. */
  function WrapI32(v: int): (r: i32)
    ensures -U32_MODULUS / 2 <= v <= I32_MAX ==> r == v
  {
    var m := v % U32_MODULUS;
    if m > I32_MAX then m - U32_MODULUS else m
  }

  /** `v as usize` for an `i32`: negative values sign-extend. */
  function I32AsUsize(v: i32): nat
  {
    if v < 0 then v + USIZE_MODULUS else v
  }

  /** `is_not_empty` with its index computed as `y as u32 * width + x as u32`. */
  function IsNotEmptyAsWritten(l: Landscape, x: i32, y: i32): (r: bool)
    requires Valid(l)
    ensures Index(l, x, y) < U32_MODULUS ==> r == IsNotEmpty(l, x, y)
  {
    if x < 0 || y < 0 || x >= l.width || y >= l.height then
      false
    else
      IndexOfPoint(l, x, y);
      var index := WrapU32(WrapU32(y * l.width) + x);
      l.buffer[index] > 0
  }

  /** What `get_pixels_line_mut` does with its slice bounds. */
  datatype LineOutcome = NoLine | Line(run: Run) | Panic

  /** `get_pixels_line_mut` with its index computed as
      `(y * width as i32 + x) as usize`. */
  function PixelsLineAsWritten(l: Landscape, point: (i32, i32), length: u32): (r: LineOutcome)
    requires Valid(l)
    ensures Index(l, point.0, point.1) <= I32_MAX ==>
      (r.NoLine? <==> PixelsLine(l, point, length).None?)
      && (r.Line? ==> PixelsLine(l, point, length) == Some(r.run))
      && !r.Panic?
  {
    var (x, y) := point;
    if x < 0 || y < 0 || x >= l.width || y >= l.height || length == 0 then
      NoLine
    else
      var index := I32AsUsize(WrapI32(WrapI32(y * l.width) + x));
      var n := Min(length, l.width - x);
      RowFits(l, y);
      if index + n <= |l.buffer| then Line(Run(index, n)) else Panic
  }

  /** The coordinates `iter_filled_points` reports for buffer position `i`:
      `(i as u32 % width, i as u32 / width)`. */
  function PointOfAsWritten(l: Landscape, i: nat): (p: (int, int))
    requires Valid(l) && i < |l.buffer|
    ensures i < U32_MODULUS ==> p == PointOf(l, i)
  {
    var j := WrapU32(i);
    (j % l.width, j / l.width)
  }

  /** A 65536-wide, 65537-high landscape, which `Terrain.New` accepts, whose
      top row is sky and whose other rows are ground. */
  function TallLandscape(): (l: Landscape)
    ensures Valid(l) && New(65536, 65537).Ok?
    ensures l.width == 65536 && l.height == 65537
  {
    var w := 65536;
    var h := 65537;
    Landscape(w, h, seq(w * h, i => if i < w then 0 else 1),
      NoiseConfig(0, DEFAULT_OCTAVES, 2.0 / w as real), h as real / 2.0, 0, true)
  }

  /** Row 65536 of the tall landscape is solid, but the wrapped `u32` index
      reads row 0, which is sky. */
  lemma IsNotEmptyWrapsAround()
    ensures IsNotEmpty(TallLandscape(), 0, 65536)
    ensures !IsNotEmptyAsWritten(TallLandscape(), 0, 65536)
  {
    var l := TallLandscape();
    IndexOfPoint(l, 0, 65536);
    assert Index(l, 0, 65536) == 65536 * 65536;
  }

  /** A 65536-wide, 32769-high empty landscape, accepted by `Terrain.New`. */
  function WideLandscape(): (l: Landscape)
    ensures Valid(l) && New(65536, 32769).Ok?
    ensures l.width == 65536 && l.height == 32769
  {
    var w := 65536;
    var h := 32769;
    Landscape(w, h, seq(w * h, _ => 0),
      NoiseConfig(0, DEFAULT_OCTAVES, 2.0 / w as real), h as real / 2.0, 0, true)
  }

  /** The first cell of the last row is a valid point, yet `y * width`
      overflows `i32`, the negative start becomes a huge `usize`, and the
      slice panics where the exact run exists. */
  lemma PixelsLineOverflowPanics()
    ensures PixelsLine(WideLandscape(), (0, 32768), 1) == Some(Run(0x8000_0000, 1))
    ensures PixelsLineAsWritten(WideLandscape(), (0, 32768), 1) == Panic
  {
    var l := WideLandscape();
    assert 32768 * 65536 == 0x8000_0000;
    assert WrapI32(0x8000_0000) == -0x8000_0000;
  }

  /** Buffer position 2^32 of the tall landscape is solid and lies at
      (0, 65536); the truncating cast reports it as (0, 0), which is sky. */
  lemma FilledPointTruncates()
    ensures TallLandscape().buffer[U32_MODULUS] > 0
    ensures PointOf(TallLandscape(), U32_MODULUS) == (0, 65536)
    ensures PointOfAsWritten(TallLandscape(), U32_MODULUS) == (0, 0)
    ensures !IsNotEmpty(TallLandscape(), 0, 0)
  {
    var l := TallLandscape();
    DivModUnique(U32_MODULUS, 65536, 65536, 0);
    assert PointOf(l, U32_MODULUS) == (U32_MODULUS % 65536, U32_MODULUS / 65536);
  }
}

=== FILE: roster.dfy ===
/** The list of players kept by the world between rounds. */
module Roster {
  import opened Base

  datatype Player = Player(money: int)

  /** The world's players; its images, fonts, sounds, meshes and shaders are
      not modelled. */
  datatype World = World(players: seq<Player>)

  /** The roster size `create_players_count` settles on for a request. */
  function ClampedCount(count: u8, maxPlayers: u8): (n: u8)
    ensures n <= maxPlayers
    ensures 2 <= maxPlayers ==> 2 <= n
    ensures 2 <= count <= maxPlayers ==> n == count
  {
    Min(Max(count, 2), maxPlayers)
  }

  /** Replaces the roster by `ClampedCount(count, maxPlayers)` players with no
      money; the previous players are dropped. */
  method CreatePlayersCount(w: World, count: u8, maxPlayers: u8) returns (w': World)
    ensures |w'.players| == ClampedCount(count, maxPlayers)
    ensures forall i :: 0 <= i < |w'.players| ==> w'.players[i].money == 0
  {
    var n := ClampedCount(count, maxPlayers);
    var players: seq<Player> := [];
    var k := 0;
    while k < n
      invariant 0 <= k <= n
      invariant |players| == k
      invariant forall i :: 0 <= i < k ==> players[i].money == 0
    {
      players := players + [Player(0)];
      k := k + 1;
    }
    w' := w.(players := players);
  }

  /** `players.len() as u8`. */
  function PlayersCount(w: World): (n: u8)
    ensures |w.players| < 0x100 ==> n == |w.players|
  {
    |w.players| % 0x100
  }

  /** Counting right after creating reports the clamped request, which lies in
      `[2, maxPlayers]` whenever `maxPlayers >= 2`. */
  lemma CountAfterCreate(w: World, count: u8, maxPlayers: u8)
    requires |w.players| == ClampedCount(count, maxPlayers)
    ensures PlayersCount(w) == Min(Max(count, 2), maxPlayers)
    ensures 2 <= maxPlayers ==> 2 <= PlayersCount(w) <= maxPlayers
  {
  }
}

=== FILE: terrain.dfy ===
/** The destructible terrain: a row-major occupancy buffer of `width * height`
    bytes, one per cell, where a non-zero byte means solid ground. */
module Terrain {
  import opened Base

  /** Configuration of the fractal height generator. */
  datatype NoiseConfig = NoiseConfig(seed: u32, octaves: nat, frequency: real)

  const DEFAULT_OCTAVES: nat := 4

  datatype Landscape = Landscape(
    width: u32,
    height: u32,
    buffer: seq<u8>,
    noise: NoiseConfig,
    amplitude: real,
    dx: i32,
    changed: bool)

  /** The only construction-time failure. */
  datatype DimensionError = InvalidDimensions

  /** What every landscape built by `New` satisfies, and every operation keeps. */
  predicate Valid(l: Landscape)
  {
    && 0 < l.width <= I32_MAX
    && 0 < l.height <= I32_MAX
    && |l.buffer| == l.width * l.height
    && l.amplitude == l.height as real / 2.0
  }

  predicate InBounds(l: Landscape, x: int, y: int)
  {
    0 <= x < l.width && 0 <= y < l.height
  }

  /** Buffer position of the cell at column `x`, row `y`. */
  function Index(l: Landscape, x: int, y: int): int
  {
    y * l.width + x
  }

  /** Column and row of the cell stored at buffer position `i`. */
  function PointOf(l: Landscape, i: int): (p: (i32, i32))
    requires Valid(l) && 0 <= i < |l.buffer|
    ensures InBounds(l, p.0, p.1) && Index(l, p.0, p.1) == i
  {
    GridOfIndex(l.width, l.height, i);
    (i % l.width, i / l.width)
  }

  /** Buffer position and cell are in one-to-one correspondence. */
  lemma IndexOfPoint(l: Landscape, x: int, y: int)
    requires Valid(l) && InBounds(l, x, y)
    ensures 0 <= Index(l, x, y) < |l.buffer|
    ensures PointOf(l, Index(l, x, y)) == (x, y)
  {
    IndexInGrid(l.width, l.height, x, y);
  }

  function Cell(l: Landscape, x: int, y: int): u8
    requires Valid(l) && InBounds(l, x, y)
  {
    IndexOfPoint(l, x, y);
    l.buffer[Index(l, x, y)]
  }

  /** Construction: both dimensions must be non-zero and fit in an `i32`. */
  function New(width: u32, height: u32): (r: Result<Landscape, DimensionError>)
    ensures r.Ok? <==> 0 < width <= I32_MAX && 0 < height <= I32_MAX
    ensures r.Ok? ==>
      && Valid(r.value)
      && r.value.width == width && r.value.height == height
      && r.value.dx == 0 && r.value.changed
      && r.value.noise == NoiseConfig(0, DEFAULT_OCTAVES, 2.0 / width as real)
      && r.value.amplitude == height as real / 2.0
    ensures r.Ok? ==> forall x, y :: InBounds(r.value, x, y) ==> Cell(r.value, x, y) == 0
  {
    if Min(width, height) == 0 || Max(width, height) > I32_MAX then
      Err(InvalidDimensions)
    else
      var l := Landscape(
        width, height,
        seq(width * height, _ => 0),
        NoiseConfig(0, DEFAULT_OCTAVES, 2.0 / width as real),
        height as real / 2.0,
        0,
        true);
      assert Valid(l);
      Ok(l)
  }

  /** Re-seeds the height generator; nothing else about the landscape changes. */
  function SetSeed(l: Landscape, seed: u32): (r: Landscape)
    ensures Seed(r) == seed
    ensures r.noise.octaves == l.noise.octaves && r.noise.frequency == l.noise.frequency
    ensures r.buffer == l.buffer && r.dx == l.dx && r.changed == l.changed
    ensures Size(r) == Size(l) && r.amplitude == l.amplitude
  {
    l.(noise := l.noise.(seed := seed))
  }

  function Seed(l: Landscape): u32
  {
    l.noise.seed
  }

  /** The seed read back is the last one set; a fresh landscape has seed 0,
      and changing the octave count keeps the seed. */
  lemma SeedReadsBack(l: Landscape, seed: u32, octaves: nat, width: u32, height: u32)
    ensures Seed(SetSeed(l, seed)) == seed
    ensures Seed(SetOctaves(l, octaves)) == Seed(l)
    ensures New(width, height).Ok? ==> Seed(New(width, height).value) == 0
  {
  }

  /** Changes the octave count of the height generator only. */
  function SetOctaves(l: Landscape, octaves: nat): (r: Landscape)
    ensures r.noise.octaves == octaves
    ensures Seed(r) == Seed(l) && r.noise.frequency == l.noise.frequency
    ensures r.buffer == l.buffer && r.dx == l.dx && r.changed == l.changed
    ensures Size(r) == Size(l) && r.amplitude == l.amplitude
  {
    l.(noise := l.noise.(octaves := octaves))
  }

  /** Re-seeding and changing the octave count touch disjoint settings. */
  lemma SeedAndOctavesCommute(l: Landscape, seed: u32, octaves: nat)
    ensures SetSeed(SetOctaves(l, octaves), seed) == SetOctaves(SetSeed(l, seed), octaves)
    ensures Valid(l) ==> Valid(SetSeed(l, seed)) && Valid(SetOctaves(l, octaves))
  {
  }

  function Size(l: Landscape): (r: (u32, u32))
    ensures Valid(l) ==> r.0 * r.1 == |l.buffer| && 0 < r.0 && 0 < r.1
  {
    (l.width, l.height)
  }

  /** The height generator: the rounded surface row, before clamping, for a
      noise configuration and a sampled horizontal coordinate. */
  type Sampler = (NoiseConfig, int) -> int

  /** Surface row of column `x`: the sample at `x + dx` clamped to `[0, height]`. */
  function Surface(l: Landscape, sample: Sampler, x: int): (s: nat)
    ensures s <= l.height
    ensures 0 <= sample(l.noise, x + l.dx) <= l.height ==> s == sample(l.noise, x + l.dx)
    ensures sample(l.noise, x + l.dx) < 0 ==> s == 0
    ensures sample(l.noise, x + l.dx) > l.height ==> s == l.height
  {
    var v := sample(l.noise, x + l.dx);
    var v := if v < 0 then 0 else v;
    if v > l.height then l.height else v
  }

  /** Reference shape of a generated bitmap: sky above each column's surface
      row and solid ground from it to the bottom. */
  function Generated(l: Landscape, sample: Sampler): (b: seq<u8>)
    requires Valid(l)
    ensures |b| == |l.buffer|
  {
    seq(|l.buffer|, i requires 0 <= i < |l.buffer| =>
      if i / l.width < Surface(l, sample, i % l.width) then 0 else 1)
  }

  /** Positions `start, start + stride, start + 2 * stride, ...`. */
  predicate OnStride(i: int, start: int, stride: int)
    requires 0 < stride
  {
    start <= i && i % stride == start % stride
  }

  /** Stores `value` at every stride position below `end`, leaving the rest. */
  function SetStrided(buf: seq<u8>, start: nat, stride: nat, end: int, value: u8): (r: seq<u8>)
    requires 0 < stride
    ensures |r| == |buf|
    ensures forall i :: 0 <= i < |buf| ==>
      r[i] == if OnStride(i, start, stride) && i < end then value else buf[i]
  {
    seq(|buf|, i requires 0 <= i < |buf| =>
      if OnStride(i, start, stride) && i < end then value else buf[i])
  }

  /** Which stride positions of column `x` lie above and below row `y`. */
  lemma ColumnStride(w: int, x: int, y: int, i: int)
    requires 0 <= x < w && 0 <= y && 0 <= i
    ensures OnStride(i, x, w) <==> i % w == x
    ensures i % w == x ==> (i < x + y * w <==> i / w < y)
    ensures OnStride(i, y * w + x, w) <==> i % w == x && i / w >= y
  {
    DivModUnique(x, w, 0, x);
    DivModUnique(y * w + x, w, y, x);
    if i % w == x {
      assert i == (i / w) * w + x;
      if i / w < y {
        MulStrict(i / w, y, w);
      } else if i / w > y {
        MulStrict(y, i / w, w);
      }
    }
  }

  /** Fills every column from its surface row: sky above, ground below.
      The buffer is rewritten column by column with the same strided walks
      over the buffer as the source. */
  method Generate(l: Landscape, sample: Sampler) returns (r: Landscape)
    requires Valid(l)
    ensures Valid(r)
    ensures r.width == l.width && r.height == l.height && r.noise == l.noise
    ensures r.amplitude == l.amplitude && r.dx == l.dx && r.changed == l.changed
    ensures r.buffer == Generated(l, sample)
  {
    var stride := l.width;
    var buf := l.buffer;
    var x := 0;
    while x < l.width
      invariant 0 <= x <= l.width
      invariant |buf| == |l.buffer|
      invariant forall i :: 0 <= i < |buf| ==>
        buf[i] == if i % stride < x then Generated(l, sample)[i] else l.buffer[i]
    {
      var y := Surface(l, sample, x);
      var index := y * stride + x;
      if y > 0 {
        buf := SetStrided(buf, x, stride, x + y * stride, 0);
      }
      buf := SetStrided(buf, index, stride, |buf|, 1);
      forall i | 0 <= i < |buf|
        ensures buf[i] == if i % stride < x + 1 then Generated(l, sample)[i] else l.buffer[i]
      {
        ColumnStride(stride, x, y, i);
      }
      x := x + 1;
    }
    r := l.(buffer := buf);
  }

  /** After `Generate`, a cell is solid exactly when it is at or below its
      column's surface row. */
  lemma GeneratedCell(l: Landscape, sample: Sampler, x: int, y: int)
    requires Valid(l) && InBounds(l, x, y)
    ensures Valid(l.(buffer := Generated(l, sample)))
    ensures Cell(l.(buffer := Generated(l, sample)), x, y)
      == if y < Surface(l, sample, x) then 0 else 1
  {
    IndexOfPoint(l, x, y);
  }

  /** Column contiguity: after `Generate` every column is one solid span
      reaching the bottom row, so a column with surface `height` is all sky. */
  lemma GeneratedColumnsAreContiguous(l: Landscape, sample: Sampler, x: i32, y: i32)
    requires Valid(l) && InBounds(l, x, y)
    ensures var g := l.(buffer := Generated(l, sample));
      && Valid(g)
      && (IsNotEmpty(g, x, y) <==> y >= Surface(l, sample, x))
      && (IsNotEmpty(g, x, y) && y + 1 < l.height ==> IsNotEmpty(g, x, y + 1))
      && (Surface(l, sample, x) == l.height ==> !IsNotEmpty(g, x, y))
  {
    GeneratedCell(l, sample, x, y);
    if y + 1 < l.height {
      GeneratedCell(l, sample, x, y + 1);
    }
  }

  /** The generated bitmap depends on the dimensions, noise configuration and
      offset only, never on what the buffer held before. */
  lemma GenerateIsDeterministic(l1: Landscape, l2: Landscape, sample: Sampler)
    requires Valid(l1) && Valid(l2)
    requires Size(l1) == Size(l2) && l1.noise == l2.noise && l1.dx == l2.dx
    ensures Generated(l1, sample) == Generated(l2, sample)
  {
  }

  /** Bounds-checked point query: off-terrain coordinates read as empty. */
  function IsNotEmpty(l: Landscape, x: i32, y: i32): (r: bool)
    requires Valid(l)
    ensures !InBounds(l, x, y) ==> !r
    ensures InBounds(l, x, y) ==> (r <==> Cell(l, x, y) > 0)
  {
    if x < 0 || y < 0 || x >= l.width || y >= l.height then
      false
    else
      IndexOfPoint(l, x, y);
      l.buffer[y * l.width + x] > 0
  }

  /** A fresh landscape has no solid cell anywhere. */
  lemma NewIsEmpty(width: u32, height: u32, x: i32, y: i32)
    requires New(width, height).Ok?
    ensures !IsNotEmpty(New(width, height).value, x, y)
  {
  }

  /** A horizontal run of the buffer, `buffer[start .. start + length]`. */
  datatype Run = Run(start: nat, length: nat)

  /** The run of up to `length` cells starting at `point`, clipped at the end
      of the row; `None` for an off-terrain point or an empty request. */
  function PixelsLine(l: Landscape, point: (i32, i32), length: u32): (r: Option<Run>)
    requires Valid(l)
    ensures r.None? <==> !InBounds(l, point.0, point.1) || length == 0
    ensures r.Some? ==>
      && r.value.start == Index(l, point.0, point.1)
      && r.value.length == Min(length, l.width - point.0)
      && 1 <= r.value.length
      && r.value.start + r.value.length <= Index(l, 0, point.1 + 1) <= |l.buffer|
  {
    var (x, y) := point;
    if x < 0 || y < 0 || x >= l.width || y >= l.height || length == 0 then
      None
    else
      var index := y * l.width + x;
      var n := Min(length, l.width - x);
      RowFits(l, y);
      Some(Run(index, n))
  }

  /** Row `y` occupies buffer positions `y * width .. (y + 1) * width`. */
  lemma RowFits(l: Landscape, y: int)
    requires Valid(l) && 0 <= y < l.height
    ensures 0 <= y * l.width && (y + 1) * l.width <= |l.buffer|
  {
    IndexInGrid(l.width, l.height, 0, y);
    if y + 1 < l.height {
      IndexInGrid(l.width, l.height, 0, y + 1);
    }
  }

  /** Writing through the slice handed out by `PixelsLine`. */
  function WriteRun(l: Landscape, run: Run, data: seq<u8>): (r: Landscape)
    requires Valid(l) && run.start + run.length <= |l.buffer| && |data| == run.length
    ensures Valid(r)
    ensures r == l.(buffer := r.buffer)
    ensures r.buffer[run.start .. run.start + run.length] == data
    ensures forall i :: 0 <= i < |l.buffer| && !(run.start <= i < run.start + run.length) ==>
      r.buffer[i] == l.buffer[i]
  {
    l.(buffer := l.buffer[..run.start] + data + l.buffer[run.start + run.length..])
  }

  /** A write through a line changes cells of that one row, from the start
      column on, and no other cell. */
  lemma LineWriteIsLocal(l: Landscape, point: (i32, i32), length: u32, data: seq<u8>, x: int, y: int)
    requires Valid(l) && PixelsLine(l, point, length).Some?
    requires |data| == PixelsLine(l, point, length).value.length
    requires InBounds(l, x, y)
    ensures var run := PixelsLine(l, point, length).value;
      var r := WriteRun(l, run, data);
      && (y == point.1 && point.0 <= x < point.0 + run.length ==> Cell(r, x, y) == data[x - point.0])
      && (y != point.1 || x < point.0 || point.0 + run.length <= x ==> Cell(r, x, y) == Cell(l, x, y))
  {
    var run := PixelsLine(l, point, length).value;
    var r := WriteRun(l, run, data);
    IndexOfPoint(l, x, y);
    if y == point.1 && point.0 <= x < point.0 + run.length {
      assert Index(l, x, y) == run.start + (x - point.0);
      assert r.buffer[run.start .. run.start + run.length][x - point.0] == data[x - point.0];
    } else if y != point.1 {
      IndexOfPoint(l, point.0, point.1);
      var i := Index(l, x, y);
      if run.start <= i < run.start + run.length {
        assert Index(l, point.0 + (i - run.start), point.1) == i;
        IndexOfPoint(l, point.0 + (i - run.start), point.1);
        assert false;
      }
    }
  }

  /** Every solid cell's coordinates, in increasing buffer order. */
  method FilledPoints(l: Landscape) returns (pts: seq<(i32, i32)>)
    requires Valid(l)
    ensures forall k :: 0 <= k < |pts| ==> IsNotEmpty(l, pts[k].0, pts[k].1)
    ensures forall x: i32, y: i32 :: IsNotEmpty(l, x, y) ==> (x, y) in pts
    ensures forall j, k :: 0 <= j < k < |pts| ==> Index(l, pts[j].0, pts[j].1) < Index(l, pts[k].0, pts[k].1)
  {
    pts := [];
    var i := 0;
    while i < |l.buffer|
      invariant 0 <= i <= |l.buffer|
      invariant forall k :: 0 <= k < |pts| ==> IsNotEmpty(l, pts[k].0, pts[k].1)
      invariant forall k :: 0 <= k < |pts| ==> Index(l, pts[k].0, pts[k].1) < i
      invariant forall j :: 0 <= j < i && l.buffer[j] > 0 ==> PointOf(l, j) in pts
      invariant forall j, k :: 0 <= j < k < |pts| ==> Index(l, pts[j].0, pts[j].1) < Index(l, pts[k].0, pts[k].1)
    {
      if l.buffer[i] > 0 {
        var p := PointOf(l, i);
        IndexOfPoint(l, p.0, p.1);
        pts := pts + [p];
      }
      i := i + 1;
    }
    forall x: i32, y: i32 | IsNotEmpty(l, x, y)
      ensures (x, y) in pts
    {
      IndexOfPoint(l, x, y);
    }
  }
}
